=== FILE: README.md ===
# polite: directories, copy-on-provision, and the `.pyc` cleanup filter, in Dafny

This project models two small pieces of the `polite` Python library.

- **`polite/paths.py`.** A `Directory` wraps one path string. It joins file
  names onto that path, asks whether the directory or a file in it exists,
  and creates the directory idempotently. A `DirectoryMap` pairs a target
  `Directory` with an optional source `Directory`. It copies packaged files
  into the target under a "never clobber" policy: by default (`overwrite=False`
  and a non-empty `new_ext`, default `".new"`) an existing regular file is
  kept, and the copy goes to the name with `new_ext` appended. With
  `overwrite=True` or an empty `new_ext` the existing file is replaced.
  The map records the final destination in `last_copy_path`.
  `safe_copy_file` copies only when the target file is missing.
- **`setup.py`.** The `cleanpyc` command walks a directory tree. It skips
  roots whose path contains `.egg`, `.git`, `.idea` or `__pycache__`, and
  yields every `*.pyc` file of the other roots.

The filesystem is abstract: a map from path strings to `Dir` or
`File(contents)`. Every operation is a pure state transformer. It returns
the new filesystem and, for `DirectoryMap`, the new map, together with
`Ok` or `Err(error)`. `Err(NoSourceDirectory)` is the `ValueError` of
`copy_file`. `Err(OSError(path))` stands for every operating-system error.
The library only propagates those errors, so they are modelled as
propagated errors.

Files:

- `wrappers.dfy`: `Option`, standing in for Python's `None` defaults.
- `path_strings.dfy`: POSIX `os.path.join`, `basename` and `dirname` on strings, and how they invert each other.
- `file_system.dfy`: the abstract filesystem with `isdir`, `isfile`, `os.makedirs` and `shutil.copy`.
- `directories.dfy`: `Directory` and its three construction strategies.
- `directory_map.dfy`: `DirectoryMap` with `target_exists`, `copy_file` and `safe_copy_file`, and the copy-policy properties.
- `clean_pyc.dfy`: `is_exclude`, `is_pyc` and `pickup_pyc`.

How the model reads the code:

- **Redirect test.** The redirect to `<dst> + new_ext` is decided by `isfile` on the un-suffixed name only.
  - A directory at `target/dst` does not redirect. `shutil.copy` then puts the file inside that directory, under the source's name, while `last_copy_path` names the directory (`CopyFileIntoDirectory`).
  - A file already at `target/dst + new_ext` is replaced (`CopyFileReplacesNewFile`).
- **Empty extension.** "Never overwrite" holds only for a non-empty `new_ext`. With `new_ext == ""` the redirected path is the original one (`CopyFileEmptyExtensionOverwrites`).
- **Order of effects.** `copy_file` creates the target directory before copying. A copy that then fails (for example, a missing source file) leaves the new directories behind, but changes no existing entry and not `last_copy_path` (`CopyFileErrorLeavesState`). Only the missing-source `ValueError` is guaranteed to leave the filesystem exactly as it was. Other failures can leave it unchanged too, for example when the target directory already exists.
- **`os.makedirs`.** It is called with its default `exist_ok=False`. It fails, creating nothing, when the path is empty, when it already exists or when a regular file sits on one of its ancestors. Otherwise it creates every missing directory on the way. `makedir` calls it only when `isdir()` is false (`polite/paths.py:57`), which is what makes `makedir` idempotent while `os.makedirs` is not.
- **The empty path.** `os.path.isdir('')` and `os.path.isfile('')` are false and `os.makedirs('')` raises, so a `Directory('')` can never be created and every `copy_file` into it fails (`CopyFileEmptyTargetFails`). A bare relative file name has an empty `dirname` and is created in the working directory, which is taken to exist.
- **`os.walk`.** The walk is an input sequence of `(root, dirs, files)` entries.
- **Outside roots.** `sys.modules` is a map from module name to module directory. An unknown name gives `None`, which stands for the `KeyError`. The per-user and per-site data roots are function parameters of `(package, company)`.
- **Errors.** A `copy_file` without a source directory raises `ValueError` before touching anything (`polite/paths.py:174-177`). The redirect test is `isfile` on the un-suffixed destination, not a general existence test (`polite/paths.py:187`).

## Model

| member | source | states |
|---|---|---|
| PathStrings.Join | polite/paths.py:38 | `os.path.join(dir, name)` ends with `name`, and for a relative `name` starts with `dir` |
| PathStrings.SplitJoin | polite/paths.py:38 | for a canonical directory and a single-segment name, `dirname` and `basename` of the joined path give back the two inputs |
| PathStrings.JoinExtension | polite/paths.py:185-189 | for a non-empty `name`, `join(dir, name) + ext == join(dir, name + ext)`, so the redirected `.new` file lies in the target directory |
| PathStrings.JoinLonger | polite/paths.py:185 | joining a relative single-segment name makes the path strictly longer than the directory |
| PathStrings.JoinAllPrefix | polite/paths.py:73 | `os.path.join(root, *paths)` with separator-free segments keeps `root` as a string prefix |
| PathStrings.JoinAllParent | polite/paths.py:73 | for a single-segment `name`, when `join(root, *paths)` does not end in a separator (or is empty or all separators), the directory of `join(root, *paths, name)` is `join(root, *paths)` |
| FileSystem.MakeDirs | polite/paths.py:58 | `os.makedirs` (with `exist_ok=False`) succeeds iff the path is non-empty, does not exist yet and no regular file is on its lineage; on success all of them are directories; on failure nothing changes; existing entries are never altered and only directories are added |
| FileSystem.MakeDirsTwiceFails | polite/paths.py:57-58 | `os.makedirs` is not idempotent: after a success a second call raises for the existing path; a repeated call never changes the filesystem, which is why `makedir` guards it with `isdir()` |
| FileSystem.Copy | polite/paths.py:198 | `shutil.copy` writes into a directory destination under the source's base name; it succeeds iff the source is a regular file, differs from the target, the target is non-empty, its parent is a directory (or empty, meaning the working directory) and the target is not a directory; it then writes the source's contents there and changes nothing else |
| FileSystem.CopyIdempotent | polite/paths.py:198 | repeating a copy gives the same filesystem and outcome |
| FileSystem.CopyOntoPath | polite/paths.py:198 | a copy onto a non-directory path in an existing directory from another regular file succeeds and leaves the source contents there |
| FileSystem.CopyTargetLength | polite/paths.py:198 | wherever `shutil.copy` resolves the destination, the written path is at least as long as the given one |
| FileSystem.CopyIntoDirectory | polite/paths.py:198 | a successful copy onto a directory leaves it a directory and puts the source contents at `dir/basename(src)` |
| Directories.GetPathSplits | polite/paths.py:32-40 | `get_path(None)` is the stored path; for a single-segment `f`, `get_path(f)` has the stored path as a string prefix, and, when the stored path does not end in a separator (or is empty or all separators), its dirname and basename are the stored path and `f` |
| Directories.MakeDir | polite/paths.py:52-60 | when `isdir()` holds nothing changes; otherwise it succeeds iff the path is non-empty and no regular file is on its lineage; after success `isdir()` holds; on failure nothing changes; no existing entry is altered |
| Directories.MakeDirIdempotent | polite/paths.py:52-60 | calling `makedir` twice equals calling it once |
| Directories.MakeDirKeepsFiles | polite/paths.py:46-60 | `makedir` does not change any `isfile` answer, so testing `isfile` before or after it is the same |
| Directories.ObjDirectory | polite/paths.py:67-77 | defined iff the module is loaded (otherwise `KeyError`); its path is the module's directory joined with the extra components |
| Directories.ObjDirectoryPrefix | polite/paths.py:70-73 | with separator-free components the module's directory is a string prefix of the result; `..` is not resolved, so this need not mean the directory lies inside it |
| Directories.UserDataDirectory | polite/paths.py:84-93 | the path is the per-user data root of `(package, company)` joined with the extra components |
| Directories.UserDataDirectoryPrefix | polite/paths.py:88-89 | with separator-free components the per-user root is a string prefix of the path |
| Directories.SiteDataDirectory | polite/paths.py:100-109 | the path is the per-site data root of `(package, company)` joined with the extra components |
| Directories.SiteDataDirectoryPrefix | polite/paths.py:104-105 | with separator-free components the per-site root is a string prefix of the path |
| DirectoryMaps.New | polite/paths.py:124-131 | a new map holds the given target and source, and `last_copy_path` is `None` |
| DirectoryMaps.TargetExists | polite/paths.py:133-154 | with a name it is `Directory.isfile(name)` of the target, a regular file at `target/name`; without one it is the target's `isdir()` |
| DirectoryMaps.CopyFile | polite/paths.py:156-206 | with no source, a `ValueError` and nothing changed; target and source are never changed; any error leaves the map unchanged; success leaves the target directory in place and sets `last_copy_path` |
| DirectoryMaps.CopyFileDefaultName | polite/paths.py:179-182 | omitting `dst_name` is the same as passing `src_name` |
| DirectoryMaps.CopyFileErrorLeavesState | polite/paths.py:174-204 | a failed `copy_file` leaves `last_copy_path` and every existing entry unchanged; it can only add directories on the target's path |
| DirectoryMaps.CopyFileKeepsExistingFile | polite/paths.py:185-198 | with `overwrite` false and a non-empty extension, an existing regular file at `target/dst` keeps its contents, whatever the outcome |
| DirectoryMaps.CopyFileRedirects | polite/paths.py:185-204 | with `overwrite` false and a file at `target/dst`, a successful copy records `target/(dst + new_ext)` and, unless a directory is there, writes the source contents there |
| DirectoryMaps.CopyFileEmptyExtensionOverwrites | polite/paths.py:185-198 | with an empty `new_ext`, a successful copy replaces the existing file at `target/dst` |
| DirectoryMaps.CopyFileReplacesNewFile | polite/paths.py:187-198 | with `overwrite` false, an existing target directory, a source file, and regular files at both `target/dst` and `target/(dst + new_ext)` (single-segment names, source distinct from the latter), the copy succeeds and the file at `target/(dst + new_ext)` is replaced by the source contents |
| DirectoryMaps.CopyFileDirect | polite/paths.py:185-204 | with `overwrite` true, or with no file at `target/dst`, a successful copy records `target/dst` and, unless a directory is there, writes the source contents there |
| DirectoryMaps.CopyFileIntoDirectory | polite/paths.py:187-204 | a directory at `target/dst` does not redirect: for a single-segment `src_name` in a source directory not ending in a separator, a successful copy puts the source contents at `target/dst/src_name`, and `last_copy_path` is `target/dst` |
| DirectoryMaps.CopyFileSucceeds | polite/paths.py:174-204 | with a source file, a non-empty target path with no file on its lineage, and a destination that is neither a directory nor the source, the copy succeeds; the target exists, and `last_copy_path` lies in it and holds the source contents |
| DirectoryMaps.CopyFileSteps | polite/paths.py:185-204 | with a source, `copy_file` leaves the filesystem as it was when `makedir` fails and as `shutil.copy` leaves it otherwise; it succeeds iff both steps succeed, and then records the destination path |
| DirectoryMaps.CopyFileEmptyTargetFails | polite/paths.py:195 | `copy_file` into a target with an empty path always fails, because `makedir` cannot create it |
| DirectoryMaps.SafeCopyFile | polite/paths.py:208-230 | with `target/dst` already a file, nothing happens and nothing is raised, even with no source; otherwise success records the un-suffixed `target/dst`, and a missing source raises `ValueError` with nothing changed |
| DirectoryMaps.SafeCopyFileNeverRedirects | polite/paths.py:219-228 | when it copies, `safe_copy_file` behaves as `copy_file` with `overwrite` true, so `new_ext` is never used |
| DirectoryMaps.SafeCopyFileProvisions | polite/paths.py:219-228 | unless a directory sits at `target/dst`, after a successful `safe_copy_file` `target_exists(dst)` holds, so later calls find the file and leave it alone |
| DirectoryMaps.SafeCopyFileIdempotent | polite/paths.py:208-230 | calling `safe_copy_file` twice gives the same filesystem, map and outcome as calling it once |
| CleanPyc.Find | setup.py:59 | `str.find`: -1 iff the substring does not occur, else the first index where it occurs |
| CleanPyc.IsExclude | setup.py:56-61 | true iff some item of the exclude list occurs in the path |
| CleanPyc.ExcludedSpelledOut | setup.py:32 | exclusion means that `.egg`, `.git`, `.idea` or `__pycache__` occurs in the path |
| CleanPyc.ExcludedByOrderIrrelevant | setup.py:56-61 | the exclusion test depends only on the set of listed items, not on their order |
| CleanPyc.IsPyc | setup.py:63-65 | `is_pyc(p)` iff `p` is some stem followed by `.pyc` |
| CleanPyc.EndsWithIffSuffixed | setup.py:65 | the `endswith` suffix test holds exactly of names built by appending the suffix to some stem |
| CleanPyc.PickupPyc | setup.py:47-54 | the nested generator loops yield exactly the walk-ordered selection `Pickup(walk)` |
| CleanPyc.EntryPyc | setup.py:49-54 | the inner loop over one root's files yields exactly that entry's selection: nothing for an excluded root, else its `.pyc` files in order |
| CleanPyc.PickupSingleRoot | setup.py:48-51 | an excluded root yields nothing; any other root yields exactly its `.pyc` files joined onto it |
| CleanPyc.FlattenAppend | setup.py:48 | concatenating the yields of two runs of entries is the yield of the combined run |
| CleanPyc.PickupLast | setup.py:48-54 | the last walk entry's yield comes after everything yielded before it |
| CleanPyc.PickupAppend | setup.py:48 | the yield of a walk is the yield of its first part followed by that of the rest |
| CleanPyc.PycPathsAppend | setup.py:49-54 | within a root, files are yielded in listed order |
| CleanPyc.PycPathsSingle | setup.py:52-54 | one file yields its joined path iff it is a `.pyc` name, exactly once |
| CleanPyc.PycPathsSound | setup.py:49-54 | every path yielded for a root is `join(root, f)` for a listed `.pyc` file `f` |
| CleanPyc.PycPathsComplete | setup.py:49-54 | every listed `.pyc` file of a root is yielded, joined onto it |
| CleanPyc.PycPathsMembership | setup.py:49-54 | a path is yielded for a root iff it is that root joined with one of its `.pyc` files |
| CleanPyc.PickupSound | setup.py:48-54 | every yielded path is a non-excluded root joined with one of that root's `.pyc` files |
| CleanPyc.PickupComplete | setup.py:48-54 | every `.pyc` file of every non-excluded root is yielded, joined onto its root |
| CleanPyc.PickupMembership | setup.py:48-54 | a path is yielded iff it is a non-excluded root joined with one of that root's `.pyc` files |

## Left out

- `ObjDirectory`'s reflection (`sys.modules`, `module_dir`, `module_path`, `object_path`, `object_dir`, `class_path`, `class_dir`): runtime introspection. The module-to-directory mapping is an input map.
- `user_data_dir` and `site_data_dir`: they come from `appdirs`, which is not part of this model. They are function parameters.
- The configuration layer (`Logger`, `ReadINI`, `ReadYAML`): it lives in a file that is not part of this model, and it delegates to `configobj`, PyYAML and the global `logging` setup.
- File metadata: `shutil.copy` also copies permission bits, which are not modelled. Contents are byte sequences.
- Permission errors, full disks and other environment failures are not modelled. `shutil.copy` also raises for special files (FIFOs), which are not modelled either. Every error the model raises is a plain `OSError(path)`, without an error kind.
- Path identity: paths are compared as strings. Symbolic links, `..`, repeated separators and relative paths against a working directory are not resolved. The working directory itself is taken to exist, so a bare relative name can always be created there. Two spellings of one file count as two files, and "same file" means "same string".
- PathStrings.SplitJoin: stated only for single-segment names and directories that do not end in a separator (or are all separators). `os.path.join` with an absolute or multi-segment name is modelled, but not split back.
- Directories.ObjDirectoryPrefix: the prefix property is stated only for separator-free components, because an absolute component replaces the root in `os.path.join`. It is a string prefix; `.` and `..` are not resolved, so a component such as `..` leads outside the module directory although the prefix still holds.
- Directories.MakeDir: the "succeeds iff no file on the lineage" clause is stated only when the path is not already a directory. The abstract filesystem does not force every ancestor of a directory to be a directory.
- Windows paths: the module's header declares Windows as its platform, but the model is POSIX `posixpath` only. `ntpath` separators (`\`), drive letters and case-insensitive names are not modelled.
- `setup.py` beyond the filter: `PyTest`, `CleanPyc.run` (`print`, `os.remove`), the `os.walk` call itself and the `setup()` call are packaging side effects.
- Concurrency: two processes provisioning the same directory at once are not modelled. All operations are sequential state transformers.

=== FILE: clean_pyc.dfy ===
/**
  The `cleanpyc` command's selection logic: which compiled Python files a
  directory walk yields for removal. A root is skipped when its path
  mentions one of the excluded names; otherwise every file whose name ends
  in ".pyc" is yielded, joined onto its root, in walk order.
*/
module CleanPyc {

  import opened PathStrings

  /** The substrings that exclude a directory from the cleanup. */
  const ExcludeList: seq<string> := [".egg", ".git", ".idea", "__pycache__"]

  const PycSuffix: string := ".pyc"

  /** One triple of `os.walk`: a directory, its sub-directories, its files. */
  datatype WalkEntry = WalkEntry(root: Path, dirs: seq<string>, files: seq<string>)

  // ---------------------------------------------------------------------
  // Substring search

  /** `sub` occurs in `s` starting at index `i`. */
  predicate OccursAt(s: string, sub: string, i: int) {
    0 <= i && i + |sub| <= |s| && s[i..i + |sub|] == sub
  }

  /** `sub` occurs somewhere in `s`. */
  predicate Occurs(s: string, sub: string) {
    exists i :: 0 <= i <= |s| - |sub| && OccursAt(s, sub, i)
  }

  /** `s.find(sub)`: the first index at which `sub` occurs, or -1. */
  method Find(s: string, sub: string) returns (r: int)
    ensures r == -1 <==> !Occurs(s, sub)
    ensures r != -1 ==> OccursAt(s, sub, r)
    ensures forall j :: 0 <= j < r ==> !OccursAt(s, sub, j)
  {
    var i := 0;
    while i + |sub| <= |s|
      invariant 0 <= i
      invariant forall j :: 0 <= j < i ==> !OccursAt(s, sub, j)
    {
      if s[i..i + |sub|] == sub {
        assert OccursAt(s, sub, i);
        return i;
      }
      i := i + 1;
    }
    return -1;
  }

  // ---------------------------------------------------------------------
  // is_exclude and is_pyc

  /** Some item of `items` occurs in `path`. */
  predicate ExcludedBy(items: seq<string>, path: string) {
    exists k :: 0 <= k < |items| && Occurs(path, items[k])
  }

  predicate Excluded(path: string) {
    ExcludedBy(ExcludeList, path)
  }

  /** `CleanPyc.is_exclude`: scans the exclude list in order and stops at
      the first item found in `path`. */
  method IsExclude(path: string) returns (b: bool)
    ensures b <==> Excluded(path)
  {
    var k := 0;
    while k < |ExcludeList|
      invariant 0 <= k <= |ExcludeList|
      invariant forall j :: 0 <= j < k ==> !Occurs(path, ExcludeList[j])
    {
      var at := Find(path, ExcludeList[k]);
      if at != -1 {
        return true;
      }
      k := k + 1;
    }
    return false;
  }

  /** The exclusion test, written out item by item. */
  lemma ExcludedSpelledOut(path: string)
    ensures Excluded(path) <==>
      Occurs(path, ".egg") || Occurs(path, ".git") || Occurs(path, ".idea") || Occurs(path, "__pycache__")
  {
    if Occurs(path, ".egg") { assert Occurs(path, ExcludeList[0]); }
    if Occurs(path, ".git") { assert Occurs(path, ExcludeList[1]); }
    if Occurs(path, ".idea") { assert Occurs(path, ExcludeList[2]); }
    if Occurs(path, "__pycache__") { assert Occurs(path, ExcludeList[3]); }
  }

  /** The exclusion test depends only on which items are listed, not on
      their order or repetition. */
  lemma ExcludedByOrderIrrelevant(a: seq<string>, b: seq<string>, path: string)
    requires forall x :: x in a <==> x in b
    ensures ExcludedBy(a, path) <==> ExcludedBy(b, path)
  {
    if ExcludedBy(a, path) {
      var k :| 0 <= k < |a| && Occurs(path, a[k]);
      assert a[k] in b;
      var j :| 0 <= j < |b| && b[j] == a[k];
    }
    if ExcludedBy(b, path) {
      var k :| 0 <= k < |b| && Occurs(path, b[k]);
      assert b[k] in a;
      var j :| 0 <= j < |a| && a[j] == b[k];
    }
  }

  /** The suffix test `str.endswith` performs holds exactly of the names
      built by appending the suffix to some stem. */
  lemma EndsWithIffSuffixed(path: string, suffix: string)
    ensures (|path| >= |suffix| && path[|path| - |suffix|..] == suffix) <==>
      exists stem :: stem + suffix == path
  {
    if |path| >= |suffix| && path[|path| - |suffix|..] == suffix {
      var stem := path[..|path| - |suffix|];
      assert stem + suffix == path;
    }
    if exists stem :: stem + suffix == path {
      var stem :| stem + suffix == path;
      assert path[|path| - |suffix|..] == suffix;
    }
  }

  /** `CleanPyc.is_pyc`: `path.endswith(".pyc")`, that is, the name is some
      stem followed by ".pyc". */
  function IsPyc(path: string): (b: bool)
    ensures b <==> exists stem :: stem + PycSuffix == path
  {
    EndsWithIffSuffixed(path, PycSuffix);
    |path| >= |PycSuffix| && path[|path| - |PycSuffix|..] == PycSuffix
  }

  // ---------------------------------------------------------------------
  // pickup_pyc

  /** The ".pyc" files of one directory, joined onto it, in listed order. */
  function PycPaths(root: Path, files: seq<string>): seq<Path>
    decreases |files|
  {
    if |files| == 0 then []
    else
      var last := files[|files| - 1];
      PycPaths(root, files[..|files| - 1]) + (if IsPyc(last) then [Join(root, last)] else [])
  }

  /** What one walk entry contributes: nothing for an excluded root. */
  function EntryYield(e: WalkEntry): seq<Path> {
    if Excluded(e.root) then [] else PycPaths(e.root, e.files)
  }

  /** The concatenation of a sequence of sequences, in order. */
  function Flatten(xss: seq<seq<Path>>): seq<Path>
    decreases |xss|
  {
    if |xss| == 0 then [] else Flatten(xss[..|xss| - 1]) + xss[|xss| - 1]
  }

  /** What each entry of a walk contributes, entry by entry. */
  function Yields(walk: seq<WalkEntry>): (ys: seq<seq<Path>>)
    ensures |ys| == |walk|
  {
    seq(|walk|, k requires 0 <= k < |walk| => EntryYield(walk[k]))
  }

  /** Everything `pickup_pyc` yields over a walk, entry after entry. */
  function Pickup(walk: seq<WalkEntry>): seq<Path> {
    Flatten(Yields(walk))
  }

  /** The inner loop of `pickup_pyc` for one walk entry: each file in
      turn, skipped when the root is excluded or the name is not a ".pyc"
      name. */
  method EntryPyc(e: WalkEntry) returns (out: seq<Path>)
    ensures out == EntryYield(e)
  {
    out := [];
    var j := 0;
    while j < |e.files|
      invariant 0 <= j <= |e.files|
      invariant out == (if Excluded(e.root) then [] else PycPaths(e.root, e.files[..j]))
    {
      var fname := e.files[j];
      var excluded := IsExclude(e.root);
      if !excluded && IsPyc(fname) {
        out := out + [Join(e.root, fname)];
      }
      assert e.files[..j + 1] == e.files[..j] + [fname];
      assert e.files[..j + 1][..j] == e.files[..j];
      assert PycPaths(e.root, e.files[..j + 1])
          == PycPaths(e.root, e.files[..j]) + (if IsPyc(fname) then [Join(e.root, fname)] else []);
      j := j + 1;
    }
    assert e.files[..j] == e.files;
  }

  /** `CleanPyc.pickup_pyc` with the walk supplied as a sequence: the
      entries' yields, in walk order. */
  method PickupPyc(walk: seq<WalkEntry>) returns (out: seq<Path>)
    ensures out == Pickup(walk)
  {
    out := [];
    var k := 0;
    while k < |walk|
      invariant 0 <= k <= |walk|
      invariant out == Pickup(walk[..k])
    {
      var ys := EntryPyc(walk[k]);
      PickupLast(walk[..k + 1]);
      assert walk[..k + 1][..k] == walk[..k];
      out := out + ys;
      k := k + 1;
    }
    assert walk[..k] == walk;
  }

  /** The yield of a list of files splits at any point. */
  lemma {:induction false} PycPathsAppend(root: Path, a: seq<string>, b: seq<string>)
    ensures PycPaths(root, a + b) == PycPaths(root, a) + PycPaths(root, b)
    decreases |b|
  {
    if |b| == 0 {
      assert a + b == a;
    } else {
      var b' := b[..|b| - 1];
      assert (a + b)[..|a + b| - 1] == a + b';
      PycPathsAppend(root, a, b');
    }
  }

  /** One file yields its joined path when it is a ".pyc" name, else nothing. */
  lemma PycPathsSingle(root: Path, f: string)
    ensures PycPaths(root, [f]) == if IsPyc(f) then [Join(root, f)] else []
  {
    assert [f][..0] == [];
  }

  /** Concatenation distributes over appending sequences of sequences. */
  lemma {:induction false} FlattenAppend(xs: seq<seq<Path>>, ys: seq<seq<Path>>)
    ensures Flatten(xs + ys) == Flatten(xs) + Flatten(ys)
    decreases |ys|
  {
    if |ys| == 0 {
      assert xs + ys == xs;
    } else {
      var ys' := ys[..|ys| - 1];
      var zs := xs + ys;
      assert zs[..|zs| - 1] == xs + ys';
      FlattenAppend(xs, ys');
    }
  }

  /** The yield of a non-empty walk is that of all but its last entry,
      followed by the last entry's own yield. */
  lemma PickupLast(walk: seq<WalkEntry>)
    requires |walk| > 0
    ensures Pickup(walk) == Pickup(walk[..|walk| - 1]) + EntryYield(walk[|walk| - 1])
  {
    assert Yields(walk)[..|walk| - 1] == Yields(walk[..|walk| - 1]);
  }

  /** Walk order: the yield of a walk splits at any point into the yields
      of its two parts. */
  lemma PickupAppend(a: seq<WalkEntry>, b: seq<WalkEntry>)
    ensures Pickup(a + b) == Pickup(a) + Pickup(b)
  {
    assert Yields(a + b) == Yields(a) + Yields(b);
    FlattenAppend(Yields(a), Yields(b));
  }

  /** A root whose path mentions an excluded name yields nothing, whatever
      its files; any other root yields exactly its ".pyc" files. */
  lemma PickupSingleRoot(e: WalkEntry)
    ensures Excluded(e.root) ==> Pickup([e]) == []
    ensures !Excluded(e.root) ==> Pickup([e]) == PycPaths(e.root, e.files)
  {
    PickupLast([e]);
    assert [e][..0] == [];
  }

  /** File `j` of walk entry `k` is one that `pickup_pyc` yields. */
  predicate Selected(walk: seq<WalkEntry>, k: int, j: int) {
    0 <= k < |walk| && 0 <= j < |walk[k].files| && !Excluded(walk[k].root) && IsPyc(walk[k].files[j])
  }

  /** Every path yielded for one directory is that directory joined with
      one of its ".pyc" files. */
  lemma {:induction false} PycPathsSound(root: Path, files: seq<string>, p: Path)
    requires p in PycPaths(root, files)
    ensures exists j :: 0 <= j < |files| && IsPyc(files[j]) && p == Join(root, files[j])
    decreases |files|
  {
    var init := files[..|files| - 1];
    var last := files[|files| - 1];
    if p in PycPaths(root, init) {
      PycPathsSound(root, init, p);
      var j :| 0 <= j < |init| && IsPyc(init[j]) && p == Join(root, init[j]);
      assert files[j] == init[j];
    } else {
      assert IsPyc(last) && p == Join(root, last);
      assert files[|files| - 1] == last;
    }
  }

  /** Every ".pyc" file of a directory is yielded, joined onto it. */
  lemma {:induction false} PycPathsComplete(root: Path, files: seq<string>, j: int)
    requires 0 <= j < |files| && IsPyc(files[j])
    ensures Join(root, files[j]) in PycPaths(root, files)
    decreases |files|
  {
    var init := files[..|files| - 1];
    if j < |files| - 1 {
      PycPathsComplete(root, init, j);
      assert init[j] == files[j];
    }
  }

  /** A path is yielded for one directory exactly when it is that directory
      joined with one of its ".pyc" files. */
  lemma PycPathsMembership(root: Path, files: seq<string>, p: Path)
    ensures p in PycPaths(root, files) <==>
      exists j :: 0 <= j < |files| && IsPyc(files[j]) && p == Join(root, files[j])
  {
    if p in PycPaths(root, files) {
      PycPathsSound(root, files, p);
    }
    if exists j :: 0 <= j < |files| && IsPyc(files[j]) && p == Join(root, files[j]) {
      var j :| 0 <= j < |files| && IsPyc(files[j]) && p == Join(root, files[j]);
      PycPathsComplete(root, files, j);
    }
  }

  /** Every path `pickup_pyc` yields is a non-excluded root joined with one
      of that root's ".pyc" files. */
  lemma {:induction false} PickupSound(walk: seq<WalkEntry>, p: Path)
    requires p in Pickup(walk)
    ensures exists k, j :: Selected(walk, k, j) && p == Join(walk[k].root, walk[k].files[j])
    decreases |walk|
  {
    var init := walk[..|walk| - 1];
    var e := walk[|walk| - 1];
    PickupLast(walk);
    if p in Pickup(init) {
      PickupSound(init, p);
      var k, j :| Selected(init, k, j) && p == Join(init[k].root, init[k].files[j]);
      assert walk[k] == init[k];
      assert Selected(walk, k, j);
    } else {
      assert p in PycPaths(e.root, e.files) && !Excluded(e.root);
      PycPathsSound(e.root, e.files, p);
      var j :| 0 <= j < |e.files| && IsPyc(e.files[j]) && p == Join(e.root, e.files[j]);
      assert Selected(walk, |walk| - 1, j);
    }
  }

  /** Every ".pyc" file of every non-excluded root is yielded. */
  lemma {:induction false} PickupComplete(walk: seq<WalkEntry>, k: int, j: int)
    requires Selected(walk, k, j)
    ensures Join(walk[k].root, walk[k].files[j]) in Pickup(walk)
    decreases |walk|
  {
    var init := walk[..|walk| - 1];
    var e := walk[|walk| - 1];
    PickupLast(walk);
    if k < |walk| - 1 {
      assert init[k] == walk[k];
      assert Selected(init, k, j);
      PickupComplete(init, k, j);
    } else {
      PycPathsComplete(e.root, e.files, j);
    }
  }

  /** Soundness and completeness of `pickup_pyc`: a path is yielded exactly
      when it is a non-excluded root joined with one of that root's ".pyc"
      files. */
  lemma PickupMembership(walk: seq<WalkEntry>, p: Path)
    ensures p in Pickup(walk) <==>
      exists k, j :: Selected(walk, k, j) && p == Join(walk[k].root, walk[k].files[j])
  {
    if p in Pickup(walk) {
      PickupSound(walk, p);
    }
    if exists k, j :: Selected(walk, k, j) && p == Join(walk[k].root, walk[k].files[j]) {
      var k, j :| Selected(walk, k, j) && p == Join(walk[k].root, walk[k].files[j]);
      PickupComplete(walk, k, j);
    }
  }
}

=== FILE: directories.dfy ===
/**
  `Directory`: one immutable directory path with pure path joining,
  existence queries against a filesystem state, and an idempotent
  `makedir`. The three construction strategies (module-relative, per-user
  data, per-site data) compute the stored path from an external root.
*/
module Directories {

  import opened Wrappers
  import opened PathStrings
  import FileSystem

  /** The stored path is a datatype field, so no operation can change it. */
  datatype Directory = Directory(path: Path)

  /** `Directory.get_path`: the directory itself, or a file name joined onto it. */
  function GetPath(d: Directory, name: Option<string>): Path {
    if name.None? then d.path else Join(d.path, name.value)
  }

  /** `get_path` without a name is the stored path; with a relative
      single-segment name it is a path inside the stored directory whose
      directory part and base name split back into the two inputs. */
  lemma GetPathSplits(d: Directory, name: Option<string>)
    ensures name.None? ==> GetPath(d, name) == d.path
    ensures name.Some? && ValidName(name.value) ==> d.path <= GetPath(d, name)
    ensures name.Some? && ValidName(name.value) && CanonicalDir(d.path) ==>
      Dirname(GetPath(d, name)) == d.path && Basename(GetPath(d, name)) == name.value
  {
    if name.Some? && ValidName(name.value) && CanonicalDir(d.path) {
      SplitJoin(d.path, name.value);
    }
  }

  /** `Directory.isdir`. */
  predicate IsDir(fs: FileSystem.FS, d: Directory) {
    FileSystem.IsDir(fs, d.path)
  }

  /** `Directory.isfile`: is there a regular file at `get_path(name)`? */
  predicate IsFile(fs: FileSystem.FS, d: Directory, name: string) {
    FileSystem.IsFile(fs, GetPath(d, Some(name)))
  }

  /** `Directory.makedir`: `os.makedirs` on the stored path, unless it is
      already a directory, in which case nothing happens. */
  function MakeDir(fs: FileSystem.FS, d: Directory): (e: FileSystem.Effect)
    ensures IsDir(fs, d) ==> e == FileSystem.Effect(fs, FileSystem.Ok)
    ensures !IsDir(fs, d) ==>
      (e.status.Ok? <==> |d.path| > 0 && forall q :: q in FileSystem.Lineage(d.path) ==> !FileSystem.IsFile(fs, q))
    ensures e.status.Ok? ==> IsDir(e.fs, d)
    ensures e.status.Err? ==> e.fs == fs
    ensures forall q :: q in fs ==> q in e.fs && e.fs[q] == fs[q]
    ensures forall q :: q in e.fs && q !in fs ==> q in FileSystem.Lineage(d.path) && e.fs[q].Dir?
  {
    if IsDir(fs, d) then FileSystem.Effect(fs, FileSystem.Ok)
    else
      assert d.path in FileSystem.Lineage(d.path);
      FileSystem.MakeDirs(fs, d.path)
  }

  /** Calling `makedir` twice is the same as calling it once. */
  lemma MakeDirIdempotent(fs: FileSystem.FS, d: Directory)
    ensures MakeDir(MakeDir(fs, d).fs, d) == MakeDir(fs, d)
  {
  }

  /** `makedir` creates only directories and alters no existing entry, so
      every `isfile` answer is the same before and after it. */
  lemma MakeDirKeepsFiles(fs: FileSystem.FS, d: Directory, name: string)
    ensures IsFile(MakeDir(fs, d).fs, d, name) <==> IsFile(fs, d, name)
  {
  }

  /** `ObjDirectory(module_name, *paths)`: the directory of a loaded module
      joined with extra components. `modules` maps each loaded module's name
      to its directory; an unknown name is the `KeyError` of `sys.modules`. */
  function ObjDirectory(modules: map<string, Path>, moduleName: string, paths: seq<string>): (r: Option<Directory>)
    ensures r.Some? <==> moduleName in modules
    ensures r.Some? ==> r.value.path == JoinAll(modules[moduleName], paths)
  {
    if moduleName in modules then Some(Directory(JoinAll(modules[moduleName], paths))) else None
  }

  /** With separator-free components the module's directory is a string
      prefix of the result (a `..` component still counts: paths are not
      normalised). */
  lemma ObjDirectoryPrefix(modules: map<string, Path>, moduleName: string, paths: seq<string>)
    requires moduleName in modules
    requires forall k :: 0 <= k < |paths| ==> ValidName(paths[k])
    ensures modules[moduleName] <= ObjDirectory(modules, moduleName, paths).value.path
  {
    JoinAllPrefix(modules[moduleName], paths);
  }

  /** `UserDataDirectory(package, company, *paths)`: the roaming per-user
      data root for the package, supplied as `userDataDir`, joined with `paths`. */
  function UserDataDirectory(userDataDir: (string, string) -> Path, package: string, company: string,
                             paths: seq<string>): (d: Directory)
    ensures d.path == JoinAll(userDataDir(package, company), paths)
  {
    Directory(JoinAll(userDataDir(package, company), paths))
  }

  /** With separator-free components the per-user root is a string prefix
      of the result. */
  lemma UserDataDirectoryPrefix(userDataDir: (string, string) -> Path, package: string, company: string,
                                paths: seq<string>)
    requires forall k :: 0 <= k < |paths| ==> ValidName(paths[k])
    ensures userDataDir(package, company) <= UserDataDirectory(userDataDir, package, company, paths).path
  {
    JoinAllPrefix(userDataDir(package, company), paths);
  }

  /** `SiteDataDirectory(package, company, *paths)`: the same over the
      shared per-site data root. */
  function SiteDataDirectory(siteDataDir: (string, string) -> Path, package: string, company: string,
                             paths: seq<string>): (d: Directory)
    ensures d.path == JoinAll(siteDataDir(package, company), paths)
  {
    Directory(JoinAll(siteDataDir(package, company), paths))
  }

  /** With separator-free components the per-site root is a string prefix
      of the result. */
  lemma SiteDataDirectoryPrefix(siteDataDir: (string, string) -> Path, package: string, company: string,
                                paths: seq<string>)
    requires forall k :: 0 <= k < |paths| ==> ValidName(paths[k])
    ensures siteDataDir(package, company) <= SiteDataDirectory(siteDataDir, package, company, paths).path
  {
    JoinAllPrefix(siteDataDir(package, company), paths);
  }
}

=== FILE: directory_map.dfy ===
/**
  `DirectoryMap`: a target directory, an optional source directory and the
  path of the last file copied. Copying never clobbers an existing regular
  file unless asked to: the copy is redirected to the name with `newExt`
  appended. Every operation is a state transformer on the filesystem and
  the map itself.
*/
module DirectoryMaps {

  import opened Wrappers
  import opened PathStrings
  import opened FileSystem
  import Directories

  /** The extension `copy_file` appends by default when it sidesteps an existing file. */
  const DefaultNewExt: string := ".new"

  datatype DirectoryMap = DirectoryMap(target: Directories.Directory,
                                       source: Option<Directories.Directory>,
                                       lastCopyPath: Option<Path>)

  /** The filesystem and the map after an operation, and how it ended. */
  datatype Step = Step(fs: FS, dm: DirectoryMap, status: Status)

  /** `DirectoryMap.__init__`: nothing has been copied yet. */
  function New(target: Directories.Directory, source: Option<Directories.Directory>): (dm: DirectoryMap)
    ensures dm.target == target && dm.source == source
    ensures dm.lastCopyPath.None?
  {
    DirectoryMap(target, source, None)
  }

  /** `target_exists`: a named regular file in the target directory, or,
      with no name, the target directory itself. */
  function TargetExists(fs: FS, dm: DirectoryMap, name: Option<string>): (b: bool)
    ensures name.Some? ==> (b <==> IsFile(fs, Join(dm.target.path, name.value)))
    ensures name.None? ==> (b <==> IsDir(fs, dm.target.path))
  {
    if name.Some? then Directories.IsFile(fs, dm.target, name.value)
    else Directories.IsDir(fs, dm.target)
  }

  /** The file name used in the target directory: `dst_name`, defaulting to `src_name`. */
  function DestName(srcName: string, dstName: Option<string>): string {
    if dstName.None? then srcName else dstName.value
  }

  /** The path `copy_file` writes to: `target/name`, with `newExt` appended
      when a regular file is already there and `overwrite` is false. */
  function DestPath(fs: FS, dm: DirectoryMap, name: string, overwrite: bool, newExt: string): Path {
    var p := Directories.GetPath(dm.target, Some(name));
    if TargetExists(fs, dm, Some(name)) && !overwrite then p + newExt else p
  }

  /** `copy_file`. Without a source directory it fails before touching
      anything. Otherwise the destination is `target/name`, or
      `target/name + newExt` when a regular file already sits at
      `target/name` and `overwrite` is false; the target directory is
      created, the file copied, and the destination recorded. */
  function CopyFile(fs: FS, dm: DirectoryMap, srcName: string, dstName: Option<string>,
                    overwrite: bool, newExt: string): (s: Step)
    ensures dm.source.None? ==> s == Step(fs, dm, Err(NoSourceDirectory))
    ensures s.dm.target == dm.target && s.dm.source == dm.source
    ensures s.status.Err? ==> s.dm == dm
    ensures s.status.Ok? ==> IsDir(s.fs, dm.target.path) && s.dm.lastCopyPath.Some?

  {
    if dm.source.None? then Step(fs, dm, Err(NoSourceDirectory))
    else
      var dstPath := DestPath(fs, dm, DestName(srcName, dstName), overwrite, newExt);
      var srcPath := Directories.GetPath(dm.source.value, Some(srcName));
      var made := Directories.MakeDir(fs, dm.target);
      if made.status.Err? then Step(made.fs, dm, made.status)
      else
        var copied := Copy(made.fs, srcPath, dstPath);
        if copied.status.Err? then Step(copied.fs, dm, copied.status)
        else Step(copied.fs, dm.(lastCopyPath := Some(dstPath)), Ok)
  }

  /** `safe_copy_file`: copy with the default policy only when no regular
      file called `name` exists in the target yet. */
  function SafeCopyFile(fs: FS, dm: DirectoryMap, srcName: string, dstName: Option<string>): (s: Step)
    ensures TargetExists(fs, dm, Some(DestName(srcName, dstName))) ==> s == Step(fs, dm, Ok)
    ensures !TargetExists(fs, dm, Some(DestName(srcName, dstName))) && s.status.Ok? ==>
      s.dm.lastCopyPath == Some(Join(dm.target.path, DestName(srcName, dstName)))
    ensures !TargetExists(fs, dm, Some(DestName(srcName, dstName))) && dm.source.None? ==>
      s == Step(fs, dm, Err(NoSourceDirectory))
  {
    var name := DestName(srcName, dstName);
    if !TargetExists(fs, dm, Some(name)) then CopyFile(fs, dm, srcName, dstName, false, DefaultNewExt)
    else Step(fs, dm, Ok)
  }

  // ---------------------------------------------------------------------
  // Properties of copy_file

  /** Omitting `dst_name` is the same as passing `src_name`. */
  lemma CopyFileDefaultName(fs: FS, dm: DirectoryMap, srcName: string, overwrite: bool, newExt: string)
    ensures CopyFile(fs, dm, srcName, None, overwrite, newExt)
         == CopyFile(fs, dm, srcName, Some(srcName), overwrite, newExt)
  {
  }

  /** A failed `copy_file` leaves the map (and so `last_copy_path`) as it
      was and changes no existing entry of the filesystem; the only trace it
      can leave is target directories created before the copy itself failed. */
  lemma CopyFileErrorLeavesState(fs: FS, dm: DirectoryMap, srcName: string, dstName: Option<string>,
                                 overwrite: bool, newExt: string)
    ensures var s := CopyFile(fs, dm, srcName, dstName, overwrite, newExt);
      s.status.Err? ==>
        && s.dm == dm
        && (forall q :: q in fs ==> q in s.fs && s.fs[q] == fs[q])
        && (forall q :: q in s.fs && q !in fs ==> q in Lineage(dm.target.path) && s.fs[q] == Dir)
  {
  }

  /** With `overwrite` false and a non-empty extension, an existing regular
      file at `target/name` keeps its contents, whether the copy succeeds
      or fails. */
  lemma CopyFileKeepsExistingFile(fs: FS, dm: DirectoryMap, srcName: string, name: string, newExt: string)
    requires |newExt| > 0
    requires IsFile(fs, Join(dm.target.path, name))
    ensures var s := CopyFile(fs, dm, srcName, Some(name), false, newExt);
      Join(dm.target.path, name) in s.fs && s.fs[Join(dm.target.path, name)] == fs[Join(dm.target.path, name)]
  {
    var p := Join(dm.target.path, name);
    if dm.source.Some? {
      CopyFileSteps(fs, dm, srcName, name, false, newExt);
      assert DestPath(fs, dm, name, false, newExt) == p + newExt;
      var made := Directories.MakeDir(fs, dm.target);
      if made.status.Ok? {
        var srcPath := Join(dm.source.value.path, srcName);
        CopyTargetLength(made.fs, srcPath, p + newExt);
      }
    }
  }

  /** The conflict policy: with `overwrite` false and a regular file at
      `target/name`, a successful copy goes to `target/(name + newExt)`,
      which is recorded as the last copy path and, unless a directory was
      already there, holds the source file's contents. */
  lemma CopyFileRedirects(fs: FS, dm: DirectoryMap, srcName: string, name: string, newExt: string)
    requires dm.source.Some? && ValidName(name)
    requires IsFile(fs, Join(dm.target.path, name))
    ensures var s := CopyFile(fs, dm, srcName, Some(name), false, newExt);
      s.status.Ok? ==>
        && s.dm.lastCopyPath == Some(Join(dm.target.path, name + newExt))
        && (!IsDir(fs, Join(dm.target.path, name + newExt)) ==>
              Join(dm.target.path, name + newExt) in s.fs && Join(dm.source.value.path, srcName) in fs &&
              s.fs[Join(dm.target.path, name + newExt)] == fs[Join(dm.source.value.path, srcName)])
  {
    JoinExtension(dm.target.path, name, newExt);
    var alt := Join(dm.target.path, name + newExt);
    CopyFileSteps(fs, dm, srcName, name, false, newExt);
    assert DestPath(fs, dm, name, false, newExt) == alt;
    var made := Directories.MakeDir(fs, dm.target);
    if made.status.Ok? && !IsDir(fs, alt) {
      JoinLonger(dm.target.path, name);
      assert alt !in Lineage(dm.target.path);
      assert !IsDir(made.fs, alt);
    }
  }

  /** The protection rests on the extension: with an empty `newExt` the
      redirected path is the original one, and a successful copy replaces
      the existing file's contents with the source's. */
  lemma CopyFileEmptyExtensionOverwrites(fs: FS, dm: DirectoryMap, srcName: string, name: string)
    requires dm.source.Some? && ValidName(name)
    requires IsFile(fs, Join(dm.target.path, name))
    ensures var s := CopyFile(fs, dm, srcName, Some(name), false, "");
      s.status.Ok? ==>
        Join(dm.target.path, name) in s.fs && Join(dm.source.value.path, srcName) in fs &&
        s.fs[Join(dm.target.path, name)] == fs[Join(dm.source.value.path, srcName)]
  {
    assert name + "" == name;
    CopyFileRedirects(fs, dm, srcName, name, "");
  }

  /** A file already sitting at `target/(name + newExt)` is replaced by the
      redirected copy: only the un-suffixed name is protected. */
  lemma CopyFileReplacesNewFile(fs: FS, dm: DirectoryMap, srcName: string, name: string, newExt: string)
    requires dm.source.Some? && IsDir(fs, dm.target.path) && CanonicalDir(dm.target.path)
    requires ValidName(name) && ValidName(name + newExt)
    requires IsFile(fs, Join(dm.target.path, name)) && IsFile(fs, Join(dm.target.path, name + newExt))
    requires IsFile(fs, Join(dm.source.value.path, srcName))
    requires Join(dm.source.value.path, srcName) != Join(dm.target.path, name + newExt)
    ensures var s := CopyFile(fs, dm, srcName, Some(name), false, newExt);
      s.status.Ok? && Join(dm.target.path, name + newExt) in s.fs &&
      s.fs[Join(dm.target.path, name + newExt)] == fs[Join(dm.source.value.path, srcName)]
  {
    JoinExtension(dm.target.path, name, newExt);
    SplitJoin(dm.target.path, name + newExt);
    CopyOntoPath(fs, Join(dm.source.value.path, srcName), Join(dm.target.path, name + newExt));
  }

  /** With `overwrite` true, or with no regular file at `target/name`, a
      successful copy goes to `target/name` itself and records that path. */
  lemma CopyFileDirect(fs: FS, dm: DirectoryMap, srcName: string, name: string, overwrite: bool, newExt: string)
    requires dm.source.Some? && ValidName(name)
    requires overwrite || !IsFile(fs, Join(dm.target.path, name))
    ensures var s := CopyFile(fs, dm, srcName, Some(name), overwrite, newExt);
      s.status.Ok? ==>
        && s.dm.lastCopyPath == Some(Join(dm.target.path, name))
        && (!IsDir(fs, Join(dm.target.path, name)) ==>
              Join(dm.target.path, name) in s.fs && Join(dm.source.value.path, srcName) in fs &&
              s.fs[Join(dm.target.path, name)] == fs[Join(dm.source.value.path, srcName)])
  {
    var dst := Join(dm.target.path, name);
    CopyFileSteps(fs, dm, srcName, name, overwrite, newExt);
    assert DestPath(fs, dm, name, overwrite, newExt) == dst;
    var made := Directories.MakeDir(fs, dm.target);
    if made.status.Ok? && !IsDir(fs, dst) {
      JoinLonger(dm.target.path, name);
      assert dst !in Lineage(dm.target.path);
      assert !IsDir(made.fs, dst);
    }
  }

  /** With a source directory, `copy_file` leaves the filesystem as it was
      when `makedir` fails and as `shutil.copy` leaves it otherwise. A
      successful `copy_file` is a successful `makedir` of the target
      followed by a successful `shutil.copy` from the source file to the
      destination path, and it records that destination path. */
  lemma CopyFileSteps(fs: FS, dm: DirectoryMap, srcName: string, name: string, overwrite: bool, newExt: string)
    requires dm.source.Some?
    ensures var s := CopyFile(fs, dm, srcName, Some(name), overwrite, newExt);
      var made := Directories.MakeDir(fs, dm.target);
      var copied := Copy(made.fs, Join(dm.source.value.path, srcName), DestPath(fs, dm, name, overwrite, newExt));
      s.fs == (if made.status.Ok? then copied.fs else fs)
    ensures var s := CopyFile(fs, dm, srcName, Some(name), overwrite, newExt);
      var dst := DestPath(fs, dm, name, overwrite, newExt);
      var made := Directories.MakeDir(fs, dm.target);
      var copied := Copy(made.fs, Join(dm.source.value.path, srcName), dst);
      && (s.status.Ok? <==> made.status.Ok? && copied.status.Ok?)
      && (s.status.Ok? ==> s.dm.lastCopyPath == Some(dst))
  {
  }

  /** A directory at `target/name` does not trigger the redirect: the copy
      lands inside that directory under the source's name, while the
      recorded last copy path is the directory. */
  lemma CopyFileIntoDirectory(fs: FS, dm: DirectoryMap, srcName: string, name: string, overwrite: bool, newExt: string)
    requires dm.source.Some? && ValidName(srcName) && CanonicalDir(dm.source.value.path)
    requires IsDir(fs, Join(dm.target.path, name))
    ensures var s := CopyFile(fs, dm, srcName, Some(name), overwrite, newExt);
      s.status.Ok? ==>
        && s.dm.lastCopyPath == Some(Join(dm.target.path, name))
        && IsDir(s.fs, Join(dm.target.path, name))
        && Join(Join(dm.target.path, name), srcName) in s.fs
        && Join(dm.source.value.path, srcName) in fs
        && s.fs[Join(Join(dm.target.path, name), srcName)] == fs[Join(dm.source.value.path, srcName)]
  {
    var s := CopyFile(fs, dm, srcName, Some(name), overwrite, newExt);
    if s.status.Ok? {
      var dst := Join(dm.target.path, name);
      var src := Join(dm.source.value.path, srcName);
      assert DestPath(fs, dm, name, overwrite, newExt) == dst;
      CopyFileSteps(fs, dm, srcName, name, overwrite, newExt);
      var made := Directories.MakeDir(fs, dm.target);
      assert IsDir(made.fs, dst);
      assert IsFile(made.fs, src);
      assert src in fs && made.fs[src] == fs[src];
      SplitJoin(dm.source.value.path, srcName);
      CopyIntoDirectory(made.fs, src, dst);
    }
  }

  /** Enough for `copy_file` to succeed: a source, a regular source file, a
      non-empty target path with no regular file on its way, and a destination
      that is neither a directory nor the source file itself. Then the target
      directory exists and the recorded path, inside the target directory,
      holds the source contents. */
  lemma CopyFileSucceeds(fs: FS, dm: DirectoryMap, srcName: string, name: string, overwrite: bool, newExt: string)
    requires dm.source.Some? && |dm.target.path| > 0 && CanonicalDir(dm.target.path)
    requires ValidName(name) && forall k :: 0 <= k < |newExt| ==> newExt[k] != Sep
    requires IsFile(fs, Join(dm.source.value.path, srcName))
    requires forall q :: q in Lineage(dm.target.path) ==> !IsFile(fs, q)
    requires var dst := DestPath(fs, dm, name, overwrite, newExt);
      !IsDir(fs, dst) && dst != Join(dm.source.value.path, srcName)
    ensures var s := CopyFile(fs, dm, srcName, Some(name), overwrite, newExt);
      && s.status.Ok?
      && IsDir(s.fs, dm.target.path)
      && s.dm.lastCopyPath.Some?
      && Dirname(s.dm.lastCopyPath.value) == dm.target.path
      && s.dm.lastCopyPath.value in s.fs
      && s.fs[s.dm.lastCopyPath.value] == fs[Join(dm.source.value.path, srcName)]
  {
    var T := dm.target.path;
    var src := Join(dm.source.value.path, srcName);
    var dst := DestPath(fs, dm, name, overwrite, newExt);
    assert Dirname(dst) == T && |dst| > |T| by {
      JoinExtension(T, name, newExt);
      assert ValidName(name + newExt);
      JoinLonger(T, name);
      JoinLonger(T, name + newExt);
      if dst == Join(T, name) { SplitJoin(T, name); } else { SplitJoin(T, name + newExt); }
    }
    var made := Directories.MakeDir(fs, dm.target);
    assert made.status.Ok? && IsDir(made.fs, T);
    assert IsFile(made.fs, src) && made.fs[src] == fs[src] && !IsDir(made.fs, dst) by {
      assert dst !in Lineage(T);
    }
    CopyOntoPath(made.fs, src, dst);
    CopyFileSteps(fs, dm, srcName, name, overwrite, newExt);
  }

  /** An empty target path is never a directory and cannot be created, so
      every `copy_file` into it fails. */
  lemma CopyFileEmptyTargetFails(fs: FS, dm: DirectoryMap, srcName: string, dstName: Option<string>,
                                 overwrite: bool, newExt: string)
    requires dm.target.path == []
    ensures CopyFile(fs, dm, srcName, dstName, overwrite, newExt).status.Err?
  {
  }

  // ---------------------------------------------------------------------
  // Properties of safe_copy_file

  /** `safe_copy_file` never takes the `newExt` route: it either leaves an
      existing file alone or copies as `copy_file` with `overwrite` true would. */
  lemma SafeCopyFileNeverRedirects(fs: FS, dm: DirectoryMap, srcName: string, dstName: Option<string>)
    ensures var s := SafeCopyFile(fs, dm, srcName, dstName);
      !TargetExists(fs, dm, Some(DestName(srcName, dstName))) ==>
        s == CopyFile(fs, dm, srcName, dstName, true, DefaultNewExt)
  {
    var name := DestName(srcName, dstName);
    if !TargetExists(fs, dm, Some(name)) {
      assert SafeCopyFile(fs, dm, srcName, dstName) == CopyFile(fs, dm, srcName, dstName, false, DefaultNewExt);
      assert DestPath(fs, dm, name, false, DefaultNewExt) == DestPath(fs, dm, name, true, DefaultNewExt);
    }
  }

  /** `safe_copy_file` provisions: once it has succeeded, `target_exists`
      reports the file, so later calls find it and leave it alone. (A
      directory already at `target/name` is excluded: the copy then lands
      inside it.) */
  lemma SafeCopyFileProvisions(fs: FS, dm: DirectoryMap, srcName: string, name: string)
    requires ValidName(name) && !IsDir(fs, Join(dm.target.path, name))
    ensures var s := SafeCopyFile(fs, dm, srcName, Some(name));
      s.status.Ok? ==> TargetExists(s.fs, s.dm, Some(name))
  {
    var T := dm.target.path;
    var p := Join(T, name);
    var s := SafeCopyFile(fs, dm, srcName, Some(name));
    if s.status.Ok? && !TargetExists(fs, dm, Some(name)) {
      assert s == CopyFile(fs, dm, srcName, Some(name), false, DefaultNewExt);
      CopyFileSteps(fs, dm, srcName, name, false, DefaultNewExt);
      assert DestPath(fs, dm, name, false, DefaultNewExt) == p;
      var made := Directories.MakeDir(fs, dm.target);
      JoinLonger(T, name);
      assert p !in Lineage(T);
      assert !IsDir(made.fs, p);
      var src := Join(dm.source.value.path, srcName);
      assert CopyTarget(made.fs, src, p) == p;
      assert IsFile(made.fs, src);
      assert IsFile(s.fs, p);
    }
  }

  /** Calling `safe_copy_file` twice is the same as calling it once: same
      filesystem, same map, same outcome. */
  lemma SafeCopyFileIdempotent(fs: FS, dm: DirectoryMap, srcName: string, dstName: Option<string>)
    ensures var s1 := SafeCopyFile(fs, dm, srcName, dstName);
      SafeCopyFile(s1.fs, s1.dm, srcName, dstName) == s1
  {
    var name := DestName(srcName, dstName);
    var s1 := SafeCopyFile(fs, dm, srcName, dstName);
    if !TargetExists(fs, dm, Some(name)) && dm.source.Some? {
      var dstPath := Directories.GetPath(dm.target, Some(name));
      assert DestPath(fs, dm, name, false, DefaultNewExt) == dstPath;
      var srcPath := Directories.GetPath(dm.source.value, Some(srcName));
      var made := Directories.MakeDir(fs, dm.target);
      if made.status.Err? {
        assert s1 == Step(fs, dm, made.status);
      } else {
        var copied := Copy(made.fs, srcPath, dstPath);
        assert !IsFile(made.fs, dstPath);
        if copied.status.Err? {
          assert s1 == Step(made.fs, dm, copied.status);
          assert Directories.MakeDir(made.fs, dm.target) == Effect(made.fs, Ok);
        } else {
          assert s1 == Step(copied.fs, dm.(lastCopyPath := Some(dstPath)), Ok);
          if TargetExists(copied.fs, s1.dm, Some(name)) {
          } else {
            assert CopyTarget(made.fs, srcPath, dstPath) != dm.target.path;
            assert Directories.MakeDir(copied.fs, dm.target) == Effect(copied.fs, Ok);
            CopyIdempotent(made.fs, srcPath, dstPath);
          }
        }
      }
    }
  }
}

=== FILE: file_system.dfy ===
/**
  An abstract filesystem: a finite map from path strings to directories and
  regular files. The two mutating primitives the directory layer relies on,
  `os.makedirs` and `shutil.copy`, are state transformers returning the new
  filesystem together with a status.
*/
module FileSystem {

  import opened PathStrings

  type Bytes = seq<bv8>

  datatype Node = Dir | File(contents: Bytes)

  type FS = map<Path, Node>

  /** `NoSourceDirectory` is the `ValueError` raised by `DirectoryMap.copy_file`;
      `OSError` stands for every error the operating system reports. */
  datatype Error = NoSourceDirectory | OSError(path: Path)

  datatype Status = Ok | Err(error: Error)

  datatype Effect = Effect(fs: FS, status: Status)

  /** `os.path.isdir`; the empty path names nothing, so it is never a directory. */
  predicate IsDir(fs: FS, p: Path) {
    |p| > 0 && p in fs && fs[p].Dir?
  }

  /** `os.path.isfile`; never true of the empty path. */
  predicate IsFile(fs: FS, p: Path) {
    |p| > 0 && p in fs && fs[p].File?
  }

  /** The directory a new file `w` would be created in exists: `dirname(w)`
      is a directory, or it is empty and `w` is resolved against the working
      directory, which is taken to exist. */
  predicate ParentExists(fs: FS, w: Path) {
    Dirname(w) == [] || IsDir(fs, Dirname(w))
  }

  /** The directories `os.makedirs(p)` must find or create: `p` itself and
      every prefix of `p` that ends just before a separator. */
  function Lineage(p: Path): (ps: set<Path>)
    ensures p in ps
    ensures forall q :: q in ps ==> q <= p
  {
    {p} + set i | 0 < i < |p| && p[i] == Sep :: p[..i]
  }

  /** `os.makedirs(p)` with its default `exist_ok=False`: fails when `p` is
      empty (`mkdir('')` reports `ENOENT`), when `p` already exists
      (`EEXIST`) or when a regular file sits anywhere on the lineage, leaving
      the filesystem as it was; otherwise every missing directory is created. */
  function MakeDirs(fs: FS, p: Path): (e: Effect)
    ensures e.status.Ok? <==> |p| > 0 && p !in fs && forall q :: q in Lineage(p) ==> !IsFile(fs, q)
    ensures e.status.Ok? ==> forall q :: q in Lineage(p) ==> IsDir(e.fs, q)
    ensures e.status.Err? ==> e.fs == fs
    ensures forall q :: q in fs ==> q in e.fs && e.fs[q] == fs[q]
    ensures forall q :: q in e.fs && q !in fs ==> q in Lineage(p) && e.fs[q] == Dir
  {
    if |p| == 0 || p in fs then Effect(fs, Err(OSError(p)))
    else if exists q :: q in Lineage(p) && IsFile(fs, q) then Effect(fs, Err(OSError(p)))
    else Effect(fs + map q | q in Lineage(p) :: Dir, Ok)
  }

  /** Where `shutil.copy(src, dst)` writes: into `dst` under the source's
      base name when `dst` is a directory, otherwise at `dst` itself. */
  function CopyTarget(fs: FS, src: Path, dst: Path): Path {
    if IsDir(fs, dst) then Join(dst, Basename(src)) else dst
  }

  /** `shutil.copy(src, dst)` on contents only (permission bits are not
      modelled). It fails when the source is not a regular file, when source
      and target are the same file, when the target's directory is missing
      when the target is empty or is itself a directory. */
  function Copy(fs: FS, src: Path, dst: Path): (e: Effect)
    ensures var w := CopyTarget(fs, src, dst);
      e.status.Ok? <==> IsFile(fs, src) && w != src && |w| > 0 && ParentExists(fs, w) && !IsDir(fs, w)
    ensures e.status.Err? ==> e.fs == fs
    ensures var w := CopyTarget(fs, src, dst);
      e.status.Ok? ==> w in e.fs && e.fs[w] == fs[src] && e.fs.Keys == fs.Keys + {w}
    ensures var w := CopyTarget(fs, src, dst);
      forall q :: q in fs && q != w ==> q in e.fs && e.fs[q] == fs[q]
  {
    var w := CopyTarget(fs, src, dst);
    if !IsFile(fs, src) then Effect(fs, Err(OSError(src)))
    else if w == src then Effect(fs, Err(OSError(w)))
    else if |w| == 0 || !ParentExists(fs, w) then Effect(fs, Err(OSError(w)))
    else if IsDir(fs, w) then Effect(fs, Err(OSError(w)))
    else Effect(fs[w := fs[src]], Ok)
  }

  /** `os.makedirs` is not idempotent: once it has succeeded, a second call
      fails because the path exists, and neither call's failure changes
      anything. */
  lemma MakeDirsTwiceFails(fs: FS, p: Path)
    ensures var e := MakeDirs(fs, p);
      && MakeDirs(e.fs, p).fs == e.fs
      && (e.status.Ok? ==> MakeDirs(e.fs, p).status == Err(OSError(p)))
  {
    var e := MakeDirs(fs, p);
    if e.status.Ok? {
      assert p in Lineage(p);
      assert p in e.fs;
    }
  }

  /** Repeating a copy that has already taken place writes the same
      contents to the same place, and a copy that failed fails again. */
  lemma CopyIdempotent(fs: FS, src: Path, dst: Path)
    ensures Copy(Copy(fs, src, dst).fs, src, dst) == Copy(fs, src, dst)
  {
    var e := Copy(fs, src, dst);
    if e.status.Ok? {
      var w := CopyTarget(fs, src, dst);
      var fs1 := e.fs;
      assert fs1 == fs[w := fs[src]];
      assert CopyTarget(fs1, src, dst) == w by {
        if IsDir(fs, dst) {
          assert w != dst;
        }
      }
      assert Dirname(w) != w;
      assert fs1[w := fs1[src]] == fs1;
    }
  }

  /** Whichever way `shutil.copy` resolves a destination path, the file it
      writes is at least as long as that path. */
  lemma CopyTargetLength(fs: FS, src: Path, dst: Path)
    ensures |CopyTarget(fs, src, dst)| >= |dst|
  {
    var b := Basename(src);
    assert |b| == 0 || b[0] != Sep;
  }

  /** Copying onto a path that is not a directory, inside an existing
      directory, from a different regular file, succeeds and writes there. */
  lemma CopyOntoPath(fs: FS, src: Path, dst: Path)
    requires IsFile(fs, src) && src != dst
    requires |dst| > 0 && ParentExists(fs, dst) && !IsDir(fs, dst)
    ensures Copy(fs, src, dst).status.Ok?
    ensures dst in Copy(fs, src, dst).fs && Copy(fs, src, dst).fs[dst] == fs[src]
  {
  }

  /** Copying onto a directory writes inside it, under the source's base
      name, and the directory stays a directory. */
  lemma CopyIntoDirectory(fs: FS, src: Path, dir: Path)
    requires IsDir(fs, dir)
    ensures var e := Copy(fs, src, dir);
      e.status.Ok? ==> IsDir(e.fs, dir) && Join(dir, Basename(src)) in e.fs && e.fs[Join(dir, Basename(src))] == fs[src]
  {
  }
}

=== FILE: path_strings.dfy ===
/**
  POSIX path strings as `os.path` treats them: joining one component onto a
  directory, and splitting a path back into its directory and its last
  component. Only the separator '/' is recognised; no normalisation of `.`,
  `..` or repeated separators takes place, just as in `os.path.join`.
*/
module PathStrings {

  type Path = string

  const Sep: char := '/'

  /** A relative, single-segment file name: non-empty and free of separators. */
  predicate ValidName(name: string) {
    |name| > 0 && forall k :: 0 <= k < |name| ==> name[k] != Sep
  }

  /** Every character is a separator (the root "/" and its repetitions). */
  predicate AllSep(s: string) {
    forall k :: 0 <= k < |s| ==> s[k] == Sep
  }

  /** A directory path that `Dirname` gives back unchanged after a `Join`:
      empty, the root, or not ending in a separator. */
  predicate CanonicalDir(dir: Path) {
    |dir| == 0 || dir[|dir| - 1] != Sep || AllSep(dir)
  }

  /** `os.path.join(dir, name)` for a single extra component: an absolute
      `name` replaces `dir`; an empty `dir` or one ending in a separator is
      extended without adding another separator. */
  function Join(dir: Path, name: string): (p: Path)
    ensures |name| <= |p| && p[|p| - |name|..] == name
    ensures (|name| == 0 || name[0] != Sep) ==> |dir| + |name| <= |p| && p[..|dir|] == dir
  {
    if |name| > 0 && name[0] == Sep then name
    else if |dir| == 0 || dir[|dir| - 1] == Sep then dir + name
    else dir + [Sep] + name
  }

  /** `os.path.join(dir, *names)`: the components are joined left to right. */
  function JoinAll(dir: Path, names: seq<string>): Path
    decreases |names|
  {
    if |names| == 0 then dir
    else Join(JoinAll(dir, names[..|names| - 1]), names[|names| - 1])
  }

  /** `p.rfind('/')`: the index of the last separator, or -1. */
  function LastSep(p: Path): (i: int)
    ensures -1 <= i < |p|
    ensures 0 <= i ==> p[i] == Sep
    ensures forall k :: i < k < |p| ==> p[k] != Sep
  {
    if |p| == 0 then -1
    else if p[|p| - 1] == Sep then |p| - 1
    else LastSep(p[..|p| - 1])
  }

  /** `s.rstrip('/')`. */
  function RStripSep(s: string): (r: string)
    ensures r <= s
    ensures |r| == 0 || r[|r| - 1] != Sep
    ensures forall k :: |r| <= k < |s| ==> s[k] == Sep
  {
    if |s| > 0 && s[|s| - 1] == Sep then RStripSep(s[..|s| - 1]) else s
  }

  /** `os.path.basename(p)`: everything after the last separator. */
  function Basename(p: Path): (b: string)
    ensures |b| <= |p| && p[|p| - |b|..] == b
    ensures forall k :: 0 <= k < |b| ==> b[k] != Sep
  {
    p[LastSep(p) + 1..]
  }

  /** `os.path.dirname(p)`: everything up to the last separator, with
      trailing separators removed unless only separators remain. */
  function Dirname(p: Path): Path {
    var head := p[..LastSep(p) + 1];
    if |head| > 0 && !AllSep(head) then RStripSep(head) else head
  }

  /** `LastSep` finds the separator that has no separator after it. */
  lemma LastSepIs(p: Path, i: int)
    requires 0 <= i < |p| && p[i] == Sep
    requires forall k :: i < k < |p| ==> p[k] != Sep
    ensures LastSep(p) == i
  {
  }

  /** Splitting a joined path gives back its two parts, provided the
      directory is canonical and the name is a single relative segment. */
  lemma {:induction false} SplitJoin(dir: Path, name: string)
    requires CanonicalDir(dir) && ValidName(name)
    ensures Dirname(Join(dir, name)) == dir
    ensures Basename(Join(dir, name)) == name
  {
    var p := Join(dir, name);
    if |dir| == 0 {
      assert p == name;
    } else if dir[|dir| - 1] == Sep {
      assert p == dir + name;
      LastSepIs(p, |dir| - 1);
      assert p[..|dir|] == dir;
    } else {
      assert p == dir + [Sep] + name;
      LastSepIs(p, |dir|);
      var head := p[..|dir| + 1];
      assert head == dir + [Sep];
      assert !AllSep(head) by { assert head[|dir| - 1] != Sep; }
      assert head[..|dir|] == dir;
      assert RStripSep(head) == RStripSep(dir);
    }
  }

  /** Appending an extension to a joined path appends it to the name: the
      extended path stays in the same directory. */
  lemma JoinExtension(dir: Path, name: string, ext: string)
    requires |name| > 0
    ensures Join(dir, name) + ext == Join(dir, name + ext)
  {
    assert (name + ext)[0] == name[0];
  }

  /** A relative component makes the path strictly longer than the directory. */
  lemma JoinLonger(dir: Path, name: string)
    requires ValidName(name)
    ensures |Join(dir, name)| > |dir|
  {
  }

  /** Joining relative components keeps the starting directory as a prefix. */
  lemma {:induction false} JoinAllPrefix(dir: Path, names: seq<string>)
    requires forall k :: 0 <= k < |names| ==> ValidName(names[k])
    ensures dir <= JoinAll(dir, names)
    decreases |names|
  {
    if |names| > 0 {
      var init := names[..|names| - 1];
      JoinAllPrefix(dir, init);
      var p := JoinAll(dir, init);
      var q := Join(p, names[|names| - 1]);
      assert q[..|p|] == p;
      assert q[..|dir|] == p[..|dir|];
    }
  }

  /** The directory of a path built with `JoinAll` is the path built from
      all but the last component. */
  lemma JoinAllParent(dir: Path, names: seq<string>, name: string)
    requires CanonicalDir(JoinAll(dir, names)) && ValidName(name)
    ensures Dirname(JoinAll(dir, names + [name])) == JoinAll(dir, names)
  {
    assert (names + [name])[..|names|] == names;
    SplitJoin(JoinAll(dir, names), name);
  }
}

=== FILE: wrappers.dfy ===
/** Optional values, standing in for Python's `None` default arguments and attributes. */
module Wrappers {

  datatype Option<+T> = None | Some(value: T)
}
